=== FILE: README.md ===
# Tray inspection decision logic, in Dafny

This project models the decision logic of a machine-vision quality gate for
trays of small parts. It has two parts.

- **Blob post-processing and scan report** (`main.py`). `detect_blobs` turns the
  detector's keypoints into a list of blobs. It computes the mean and standard
  deviation of the keypoint radii over *all* keypoints. It keeps a keypoint
  only if its truncated circle stays strictly more than `margin` pixels from
  every border. It draws each kept blob's circle red when the standard
  deviation is positive and the blob's truncated radius is more than two
  standard deviations from the mean, and green otherwise.
  `main` then counts the blobs against the tray profile's expected count. It
  flags a blob as a possible overlap when its size exceeds 1.5 times the mean
  size of the kept blobs.
- **Focus verdict and focus wait** (`Focus.py`). `is_camera_in_focus` compares
  a sharpness score with a threshold (strictly). `wait_for_focus` reads frames
  until one is in focus. It gives up with `None` when a read fails, or when ESC
  is pressed after an out-of-focus frame.

Everything OpenCV computes is an input: the keypoints, the image size and the
focus score. The score is a function parameter `score: F -> real` over an
opaque frame type `F`. Arithmetic is exact (`real`). The model never forms
the standard deviation. It compares squares instead: `std > 0` becomes
`var > 0`, and `|r - mean| > 2 * std` becomes `(r - mean)^2 > 4 * var`.
`Stats.DeviationBySquares` proves that these forms agree for every
non-negative root of the variance.

Files and modules:

| file | module | models |
|---|---|---|
| `options.dfy` | `Options` | values that may be missing: absent profile keys, Python's `None` |
| `stats.dfy` | `Stats` | `np.mean` / `np.std` as exact population statistics |
| `tray_config.dfy` | `TrayConfig` | profile keys and their defaults |
| `blob_detection.dfy` | `BlobDetection` | `detect_blobs` after the detector |
| `scan_report.dfy` | `ScanReport` | the count, difference and overlap flags of `main` |
| `focus.dfy` | `Focus` | `is_camera_in_focus`, `wait_for_focus` |

Modelling choices:

- Python's `int()` on a float truncates toward zero. `BlobDetection.Trunc`
  does the same for every real, negative ones included.
- The camera is a finite sequence of events: `ReadFail`, or
  `Frame(image, key)`. Here `key` is the code `cv2.waitKey` reports after the
  frame is shown, and -1 means no key. ESC is `key & 0xFF == 27`. For every
  integer, Python's `& 0xFF` equals Dafny's Euclidean `key % 256`. Running off
  the end of the sequence counts as a failed read, which is what `camera.read()`
  reports when the stream ends.
- A kept blob is recorded with its keypoint's own `pt` and `size`, so blobs
  are keypoints. The circles drawn on the overlay become data: one `Circle`
  per kept blob, in the same order.

Consequences of the code that are easy to miss:

- The radius statistics include keypoints the edge filter rejects: the mean
  and standard deviation are computed at main.py:64-66, before the edge test
  at main.py:73-74. Rejected keypoints can therefore decide a kept blob's
  colour (`BlobDetection.RejectedKeypointsEnterStatistics`). For example, five
  rejected corner keypoints turn a kept blob red that would be green on its
  own (`BlobDetection.RejectedKeypointsShiftStatistics`).
- Four radius-10 parts and one radius-40 part are all green. The large one is
  exactly two standard deviations from the mean, and the test at main.py:76 is
  strict (`BlobDetection.OneLargeAmongFiveNotFlagged`). More generally, take
  `n` keypoints, all but one of one common radius. If the odd part's
  radius is a whole number and the part is kept, it is red exactly when
  `n >= 6`, in any position (`BlobDetection.SingleOddPartRedIffSixOrMore`).
  Without the whole-number condition this fails: the truncated radius is
  compared with the untruncated mean (main.py:71, 76). Among ten radii of
  10.5 and one of 11.5, the truncated ordinary radius 10 is an outlier and the
  truncated odd radius 11 is not. Kept ordinary parts are then red and a kept
  odd part green (`BlobDetection.TruncationCanInvertColours`).
- `detect_blobs` promises blobs "fully within the image" (main.py:38), but the
  edge test compares truncated coordinates. With a fractional margin, a kept
  blob's true circle can reach up to 2 pixels past the right or bottom margin
  and up to 1 pixel past the left or top one
  (`BlobDetection.KeptCircleNearlyInside`). With a whole-number margin such as
  the default 10, it is strictly inside on the left and top, and ends less
  than 1 pixel past the right and bottom margins
  (`BlobDetection.KeptCircleInsideWholeMargin`). A circle at x = 979.9 with
  radius 10.9 in a 1000-pixel image with margin 10 is kept and ends 0.8 pixels
  past the margin (`BlobDetection.TruncationLetsCircleCrossMargin`).

## Model

| member | source | states |
|---|---|---|
| `TrayConfig.BlobParamsOf` | main.py:39-41 | margin is the profile's `blob_margin` or 10; max area is `blob_max_area` or 100000; min area is passed through with no default |
| `TrayConfig.ExpectedCount` | main.py:94 | the expected count is the profile's `expected_count`, or 0 when absent |
| `Stats.DeviationBySquares` | main.py:76 | for any sigma >= 0, `sigma > 0 and abs(d) > 2*sigma` holds iff `sigma^2 > 0 and d^2 > 4*sigma^2` |
| `Stats.VarianceZeroIffAllEqual` | main.py:64-66 | the population variance is 0 iff the sequence is empty or all its elements are equal |
| `Stats.SomeAtMostMean` | main.py:112 | a non-empty sequence has an element no greater than its mean |
| `Stats.OddOneAnywhere` | main.py:64-66 | the mean and variance of one odd value among equal ones do not depend on the odd value's position |
| `Stats.SingleDeviantBeyondTwoSigma` | main.py:64-76 | with one odd element among n >= 2 otherwise equal ones, the odd one is more than two standard deviations from the mean iff n >= 6 |
| `BlobDetection.Trunc` | main.py:70-71 | `int()` truncates toward zero: `n <= v < n + 1` for `v >= 0`, and `n - 1 < v <= n` for `v < 0` |
| `BlobDetection.EdgeFilter` | main.py:69-75 | a keypoint is in the result iff it is an input keypoint passing all four strict margin tests on truncated x, y and size/2; there are no more blobs than keypoints |
| `BlobDetection.EdgeFilterIsSubsequence` | main.py:69-75 | the kept blobs are a subsequence of the keypoints: order kept, each with its own `pt` and `size` |
| `BlobDetection.EdgeFilterOfConcat` | main.py:69-75 | filtering a concatenation filters each part separately, so relative order never changes |
| `BlobDetection.OnlyOneKept` | main.py:69-75 | when exactly the keypoint at one position passes the edge test, the blob list is that keypoint alone |
| `BlobDetection.EdgeOnMarginRejected` | main.py:73-74 | a blob whose truncated left edge sits exactly on the margin is rejected |
| `BlobDetection.KeptCircleNearlyInside` | main.py:70-74 | for non-negative inputs, a kept blob's true circle is within 1 pixel of the left and top margins and less than 2 pixels past the right and bottom ones |
| `BlobDetection.KeptCircleInsideWholeMargin` | main.py:70-74 | with a whole-number margin and non-negative inputs, a kept blob's true circle is strictly inside the margin on the left and top and ends less than 1 pixel past it on the right and bottom |
| `BlobDetection.WellInsideIsKept` | main.py:70-74 | a keypoint whose true circle clears the left and top margins by one extra pixel, and the right and bottom margins, is kept |
| `BlobDetection.TruncationLetsCircleCrossMargin` | main.py:70-74 | a blob at x = 979.9 with radius 10.9 in a 1000-pixel image with margin 10 is kept, although its circle reaches 990.8 |
| `BlobDetection.Annotate` | main.py:69-83 | one pass yields exactly the edge-filtered blobs, and one circle per blob, in the same order, with truncated centre and radius and the outlier colour |
| `BlobDetection.DetectBlobs` | main.py:62-85 | the blobs are the edge-filtered keypoints; each circle is red iff its truncated radius is an outlier against the mean and variance of the radii of all keypoints |
| `BlobDetection.NoKeypointsNothingFound` | main.py:64-66 | with no keypoints both statistics are 0 and no blob or circle results |
| `BlobDetection.RedIffBeyondTwoSigma` | main.py:76-80 | a circle is red iff `std > 0` and its truncated radius is more than `2*std` from the untruncated mean, for the standard deviation as any non-negative root of the variance |
| `BlobDetection.OutlierIffBeyondTwoSigma` | main.py:76 | for any sigma >= 0 with sigma^2 equal to the variance, the outlier test on the variance agrees with `std > 0 and abs(r - mean) > 2*std` |
| `BlobDetection.UniformSizesAllGreen` | main.py:64-80 | when all keypoints have the same size, every circle is green |
| `BlobDetection.NoOutlierAllGreen` | main.py:76-80 | when no keypoint's truncated radius is an outlier, every circle is green |
| `BlobDetection.RedImpliesUnequalRadii` | main.py:64-80 | a red circle implies two keypoints of different size |
| `BlobDetection.SingleOddPartRedIffSixOrMore` | main.py:64-80 | a keypoint at any position, kept, whose whole-number radius differs from the common radius of all other keypoints, is among the blobs, and every circle drawn for it is red iff there are at least six keypoints |
| `BlobDetection.TruncationCanInvertColours` | main.py:70-76 | with ten radii of 10.5 and one of 11.5, the truncated ordinary radius 10 is an outlier and the truncated odd radius 11 is not |
| `BlobDetection.RejectedKeypointsEnterStatistics` | main.py:64-80 | with one kept part of whole-number radius at any position and all other keypoints rejected with one common different radius, only the part is kept; it is red iff there are at least six keypoints, and green when detected alone |
| `BlobDetection.RejectedKeypointsShiftStatistics` | main.py:64-80 | rejected corner keypoints enter the statistics: the one kept part is red, yet green when detected alone |
| `BlobDetection.OneLargeAmongFiveNotFlagged` | main.py:64-80 | four radius-10 blobs and one radius-40 blob in a 200 by 200 image with margin 5 are all kept and all green |
| `ScanReport.OverlapFlags` | main.py:112-115 | one flag per blob, set iff the blob's size exceeds 1.5 times the mean size of the kept blobs |
| `ScanReport.Scan` | main.py:107-115 | found is the number of kept blobs (at most the keypoint count); found + difference = expected; one overlap flag per blob, with the 1.5 times mean rule |
| `ScanReport.SomeBlobNotOverlap` | main.py:112-115 | among one or more blobs of non-negative size, at least one is not flagged |
| `ScanReport.EqualSizesNoOverlap` | main.py:112-115 | blobs of one common non-negative size are never flagged |
| `ScanReport.DefaultExpectedDifference` | main.py:94-109 | without an expected count the difference is minus the number found, so never positive |
| `ScanReport.FiveOfSixFound` | main.py:108-109 | an expected count of 6 with five blobs found gives a difference of 1 |
| `Focus.IsCameraInFocus` | Focus.py:28-30 | the focus measure is returned unchanged, with a verdict that holds iff it is strictly above the threshold |
| `Focus.ScoreAtThresholdIsOutOfFocus` | Focus.py:30 | a score equal to the threshold is out of focus |
| `Focus.VerdictMonotone` | Focus.py:30 | a higher score or a lower threshold never turns in-focus into out-of-focus |
| `Focus.DefaultThresholdVerdict` | Focus.py:18-30 | called without a threshold, a frame is in focus iff its score exceeds 9.0 |
| `Focus.DefaultThresholdWait` | Focus.py:32-52 | called without a threshold, the wait returns the first frame scoring above 9.0 when every frame before it scored at most 9.0 without ESC |
| `Focus.NoKeyIsNotEsc` | Focus.py:53 | no key (-1) is not ESC; 27 and 27 + 256 are ESC under the `& 0xFF` mask |
| `Focus.WaitForFocus` | Focus.py:38-57 | a returned frame is in focus |
| `Focus.SkipsContinuing` | Focus.py:38-56 | out-of-focus frames without ESC are read past with no effect on the result |
| `Focus.ReturnsFirstInFocusFrame` | Focus.py:38-52 | the first in-focus frame, preceded only by out-of-focus frames without ESC, is returned whatever key accompanies it |
| `Focus.FailOrEscGivesNone` | Focus.py:39-57 | a failed read, or ESC after an out-of-focus frame, before any in-focus frame gives `None` for both causes |
| `Focus.ExhaustedGivesNone` | Focus.py:39-42 | a stream that ends before any in-focus frame or ESC gives `None` |
| `Focus.LaterEventsNotConsumed` | Focus.py:39-57 | events after the one that ends the loop do not affect the result |
| `Focus.ResultIsFirstInFocus` | Focus.py:38-52 | a returned frame comes from an in-focus frame, preceded only by out-of-focus frames without ESC |

## Left out

- The image processing inside OpenCV is not modelled. This covers grey
  conversion, the 7x7 Gaussian blur, the inverted binary threshold at 200,
  contour finding, `SimpleBlobDetector` with its area filter, and the Laplacian
  variance (main.py:42-61, Focus.py:28-29). These are foreign library calls.
  Keypoints and focus scores are inputs instead.
- The minimum and maximum areas only configure that detector. The model
  carries them (`TrayConfig.BlobParams`) but uses them for nothing.
- Camera capture, `imshow`, `waitKey`, `putText`, `circle` and window
  teardown are I/O. The status text `wait_for_focus` draws on the frame it
  returns is not modelled: frames are opaque.
- `load_tray_config` reads a JSON file (main.py:33-35), which is I/O. A
  profile here holds numbers or nothing. A key that is present but `null`
  reads as `None`. For `blob_min_area` that is the same as a missing key. A
  `null` `blob_margin` makes the comparison at main.py:73 fail once a keypoint
  reaches it. A `null` `expected_count` makes the subtraction at main.py:109
  fail. A `null` `blob_max_area` goes to the detector parameters (main.py:56),
  which are outside the model.
- The interactive loop of `main` (main.py:95-106, 116-118) is I/O
  orchestration and is not modelled. It waits for SPACE to scan and ESC to
  quit. Only what it does with one scan's blobs is modelled.
- All `print` and `operator_message` output is left out. The model keeps the
  values those messages report.
- `verify_logo` (main.py:127-130) always returns `True` and has no logic.
- Floating-point rounding in numpy's `mean` and `std` is not modelled: the
  model uses exact real arithmetic. Equal sizes stay exact in doubles. A
  keypoint size is a 32-bit float, so halving it is exact. The partial sums of
  equal radii are exact, and the standard deviation is exactly 0, so
  `BlobDetection.UniformSizesAllGreen` holds of the Python too. Rounding
  matters where the exact model sits on the strict boundary
  `abs(r - mean) > 2 * std` and the statistics do not round exactly. The
  scenario of `BlobDetection.OneLargeAmongFiveNotFlagged` is exact in doubles
  (mean 16.0, standard deviation 12.0), so the Python draws it green too. With
  radii 3, 1, 1, 1 and 1, the `n = 5` case of
  `BlobDetection.SingleOddPartRedIffSixOrMore`, the mean 1.4 and the standard
  deviation 0.8 are not exact doubles. A rounded mean or standard deviation
  can then tip `abs(3 - 1.4) > 1.6` either way.
- The camera index parameter of `wait_for_focus` only selects a device. The
  event sequence stands for that device. It is finite, whereas the source loop
  can wait forever on a camera that never focuses.

=== FILE: blob_detection.dfy ===
/** The decision logic of `detect_blobs` once the blob detector has produced its
    keypoints: radius statistics over all keypoints, the edge-margin filter on
    truncated pixel coordinates, and the red/green outlier colouring of the
    circles drawn around the kept blobs. The keypoints are an input; the image
    processing that finds them is not modelled. */
module BlobDetection {
  import opened Stats

  datatype Point = Point(x: real, y: real)

  /** A detector keypoint: its centre and its diameter (`kp.pt`, `kp.size`). A
      kept blob is recorded with the same `pt` and `size`, so blobs are keypoints. */
  datatype Keypoint = Keypoint(pt: Point, size: real)

  datatype Colour = Red | Green

  /** A circle drawn on the overlay image, in truncated pixel coordinates. */
  datatype Circle = Circle(cx: int, cy: int, radius: int, colour: Colour)

  /** What one call produces: the returned blob list, and one circle per blob in
      the same order (the overlay drawing, kept as data). */
  datatype Detection = Detection(blobs: seq<Keypoint>, circles: seq<Circle>)

  /** Python's `int()` on a float: truncation toward zero. */
  function Trunc(v: real): (n: int)
    ensures 0.0 <= v ==> n as real <= v < n as real + 1.0
    ensures v < 0.0 ==> n as real - 1.0 < v <= n as real
  {
    if v >= 0.0 then v.Floor else -((-v).Floor)
  }

  function Radius(kp: Keypoint): real
  {
    kp.size / 2.0
  }

  function Radii(kps: seq<Keypoint>): (rs: seq<real>)
    ensures |rs| == |kps|
    ensures forall i :: 0 <= i < |kps| ==> rs[i] == Radius(kps[i])
  {
    if |kps| == 0 then [] else [Radius(kps[0])] + Radii(kps[1..])
  }

  /** The edge test: the truncated circle keeps more than `margin` pixels from
      every border of a `w` by `h` image. All four comparisons are strict. */
  predicate InsideMargin(kp: Keypoint, w: int, h: int, margin: real)
  {
    var x, y, r := Trunc(kp.pt.x), Trunc(kp.pt.y), Trunc(Radius(kp));
    && (x - r) as real > margin
    && ((x + r) as real) < (w as real) - margin
    && (y - r) as real > margin
    && ((y + r) as real) < (h as real) - margin
  }

  /** The outlier test on a truncated radius `r` against the untruncated mean:
      `std > 0 and abs(r - mean) > 2 * std`, written with the variance. */
  predicate IsOutlier(r: int, mean: real, variance: real)
  {
    variance > 0.0 && Square(r as real - mean) > 4.0 * variance
  }

  function CircleOf(kp: Keypoint, mean: real, variance: real): Circle
  {
    var r := Trunc(Radius(kp));
    Circle(Trunc(kp.pt.x), Trunc(kp.pt.y), r, if IsOutlier(r, mean, variance) then Red else Green)
  }

  /** The keypoints the edge test keeps, in their original order. */
  function EdgeFilter(kps: seq<Keypoint>, w: int, h: int, margin: real): (kept: seq<Keypoint>)
    ensures |kept| <= |kps|
    ensures forall k :: k in kept ==> k in kps && InsideMargin(k, w, h, margin)
    ensures forall k :: k in kps && InsideMargin(k, w, h, margin) ==> k in kept
  {
    if |kps| == 0 then []
    else (if InsideMargin(kps[0], w, h, margin) then [kps[0]] else [])
         + EdgeFilter(kps[1..], w, h, margin)
  }

  /** The loop of `detect_blobs` for fixed statistics: one pass that appends each
      kept keypoint to the blob list and draws its circle. */
  function Annotate(kps: seq<Keypoint>, w: int, h: int, margin: real, mean: real, variance: real)
    : (d: Detection)
    ensures d.blobs == EdgeFilter(kps, w, h, margin)
    ensures |d.circles| == |d.blobs|
    ensures forall i :: 0 <= i < |d.circles| ==> d.circles[i] == CircleOf(d.blobs[i], mean, variance)
  {
    if |kps| == 0 then Detection([], [])
    else
      var rest := Annotate(kps[1..], w, h, margin, mean, variance);
      if InsideMargin(kps[0], w, h, margin) then
        Detection([kps[0]] + rest.blobs, [CircleOf(kps[0], mean, variance)] + rest.circles)
      else
        rest
  }

  /** `detect_blobs` from the keypoints on: statistics over the radii of ALL
      keypoints, then the filtering and colouring pass. */
  function DetectBlobs(kps: seq<Keypoint>, w: int, h: int, margin: real): (d: Detection)
    ensures d.blobs == EdgeFilter(kps, w, h, margin)
    ensures |d.circles| == |d.blobs|
    ensures forall i :: 0 <= i < |d.circles| ==>
      && d.circles[i].cx == Trunc(d.blobs[i].pt.x)
      && d.circles[i].cy == Trunc(d.blobs[i].pt.y)
      && d.circles[i].radius == Trunc(Radius(d.blobs[i]))
      && (d.circles[i].colour == Red <==>
            IsOutlier(d.circles[i].radius, Mean(Radii(kps)), Variance(Radii(kps))))
  {
    var rs := Radii(kps);
    Annotate(kps, w, h, margin, Mean(rs), Variance(rs))
  }

  /** With no keypoints both statistics are 0 and nothing is found or drawn. */
  lemma NoKeypointsNothingFound(w: int, h: int, margin: real)
    ensures Mean(Radii([])) == 0.0 && Variance(Radii([])) == 0.0
    ensures DetectBlobs([], w, h, margin) == Detection([], [])
  {
  }

  // ----- the edge filter -----

  /** Subsequence: `a` is `b` with some elements removed, order kept. */
  predicate IsSubsequence<T(==)>(a: seq<T>, b: seq<T>)
    decreases |b|
  {
    |a| == 0
    || (|b| > 0
        && ((a[0] == b[0] && IsSubsequence(a[1..], b[1..])) || IsSubsequence(a, b[1..])))
  }

  lemma {:induction false} EdgeFilterIsSubsequence(kps: seq<Keypoint>, w: int, h: int, margin: real)
    ensures IsSubsequence(EdgeFilter(kps, w, h, margin), kps)
  {
    if |kps| > 0 {
      EdgeFilterIsSubsequence(kps[1..], w, h, margin);
      var kept := EdgeFilter(kps, w, h, margin);
      var rest := EdgeFilter(kps[1..], w, h, margin);
      if InsideMargin(kps[0], w, h, margin) {
        assert kept == [kps[0]] + rest;
        assert kept[1..] == rest;
      } else {
        assert kept == rest;
      }
    }
  }

  /** Filtering a concatenation filters each part: the relative order of the kept
      keypoints never changes. */
  lemma {:induction false} EdgeFilterOfConcat(a: seq<Keypoint>, b: seq<Keypoint>, w: int, h: int, margin: real)
    ensures EdgeFilter(a + b, w, h, margin) == EdgeFilter(a, w, h, margin) + EdgeFilter(b, w, h, margin)
  {
    if |a| == 0 {
      assert a + b == b;
    } else {
      assert (a + b)[1..] == a[1..] + b;
      EdgeFilterOfConcat(a[1..], b, w, h, margin);
    }
  }

  lemma {:induction false} EdgeFilterAllInside(kps: seq<Keypoint>, w: int, h: int, margin: real)
    requires forall i :: 0 <= i < |kps| ==> InsideMargin(kps[i], w, h, margin)
    ensures EdgeFilter(kps, w, h, margin) == kps
  {
    if |kps| > 0 {
      assert forall i :: 0 <= i < |kps[1..]| ==> kps[1..][i] == kps[i + 1];
      EdgeFilterAllInside(kps[1..], w, h, margin);
      assert [kps[0]] + kps[1..] == kps;
    }
  }

  lemma EdgeFilterNoneInside(kps: seq<Keypoint>, w: int, h: int, margin: real)
    requires forall i :: 0 <= i < |kps| ==> !InsideMargin(kps[i], w, h, margin)
    ensures EdgeFilter(kps, w, h, margin) == []
  {
  }

  /** For keypoints with non-negative coordinates and size, a kept blob's true
      (untruncated) circle clears the margin up to truncation error: by more than
      `margin - 1` on the left and top, and it ends less than 2 pixels past the
      margin on the right and bottom. */
  lemma KeptCircleNearlyInside(kp: Keypoint, w: int, h: int, margin: real)
    requires kp.pt.x >= 0.0 && kp.pt.y >= 0.0 && kp.size >= 0.0
    requires InsideMargin(kp, w, h, margin)
    ensures kp.pt.x - Radius(kp) > margin - 1.0
    ensures kp.pt.y - Radius(kp) > margin - 1.0
    ensures kp.pt.x + Radius(kp) < (w as real) - margin + 2.0
    ensures kp.pt.y + Radius(kp) < (h as real) - margin + 2.0
  {
    var x, y, r := Trunc(kp.pt.x), Trunc(kp.pt.y), Trunc(Radius(kp));
    assert x as real <= kp.pt.x < x as real + 1.0;
    assert y as real <= kp.pt.y < y as real + 1.0;
    assert r as real <= Radius(kp) < r as real + 1.0;
  }

  /** With a whole-number margin, such as the default 10, the truncated tests
      are tighter: a kept blob's true circle is strictly inside the margin on
      the left and top, and ends less than 1 pixel past it on the right and
      bottom. */
  lemma KeptCircleInsideWholeMargin(kp: Keypoint, w: int, h: int, m: int)
    requires kp.pt.x >= 0.0 && kp.pt.y >= 0.0 && kp.size >= 0.0
    requires InsideMargin(kp, w, h, m as real)
    ensures kp.pt.x - Radius(kp) > m as real
    ensures kp.pt.y - Radius(kp) > m as real
    ensures kp.pt.x + Radius(kp) < (w - m + 1) as real
    ensures kp.pt.y + Radius(kp) < (h - m + 1) as real
  {
    var x, y, r := Trunc(kp.pt.x), Trunc(kp.pt.y), Trunc(Radius(kp));
    assert x as real <= kp.pt.x < x as real + 1.0;
    assert y as real <= kp.pt.y < y as real + 1.0;
    assert r as real <= Radius(kp) < r as real + 1.0;
    assert x - r >= m + 1 && y - r >= m + 1;
    assert x + r <= w - m - 1 && y + r <= h - m - 1;
  }

  /** Conversely, a keypoint whose true circle clears the margin by one more pixel
      on the left and top, and clears it on the right and bottom, is kept. */
  lemma WellInsideIsKept(kp: Keypoint, w: int, h: int, margin: real)
    requires kp.pt.x >= 0.0 && kp.pt.y >= 0.0 && kp.size >= 0.0
    requires kp.pt.x - Radius(kp) > margin + 1.0
    requires kp.pt.y - Radius(kp) > margin + 1.0
    requires kp.pt.x + Radius(kp) < (w as real) - margin
    requires kp.pt.y + Radius(kp) < (h as real) - margin
    ensures InsideMargin(kp, w, h, margin)
  {
    var x, y, r := Trunc(kp.pt.x), Trunc(kp.pt.y), Trunc(Radius(kp));
    assert x as real <= kp.pt.x < x as real + 1.0;
    assert y as real <= kp.pt.y < y as real + 1.0;
    assert r as real <= Radius(kp) < r as real + 1.0;
  }

  /** A blob whose truncated left edge sits exactly on the margin is rejected. */
  lemma EdgeOnMarginRejected(kp: Keypoint, w: int, h: int, margin: real)
    requires (Trunc(kp.pt.x) - Trunc(Radius(kp))) as real == margin
    ensures kp !in EdgeFilter([kp], w, h, margin)
  {
  }

  /** Truncation lets a kept blob's true circle cross the right margin: centre
      x = 979.9 and radius 10.9 in a 1000-pixel-wide image with margin 10 reach
      990.8, past 1000 - 10, yet the truncated 979 + 10 = 989 passes. */
  lemma TruncationLetsCircleCrossMargin()
    ensures var kp := Keypoint(Point(979.9, 500.0), 21.8);
      && kp in EdgeFilter([kp], 1000, 1000, 10.0)
      && kp.pt.x + Radius(kp) > 1000.0 - 10.0
  {
    var kp := Keypoint(Point(979.9, 500.0), 21.8);
    assert Trunc(kp.pt.x) == 979;
    assert Trunc(Radius(kp)) == 10;
    assert Trunc(kp.pt.y) == 500;
  }

  // ----- the outlier colouring -----

  /** The colour test in the source's own terms: for the standard deviation
      `sigma` (any non-negative root of the variance of all radii), a kept blob
      is drawn red iff `sigma > 0` and its truncated radius is more than
      `2 * sigma` from the mean radius. */
  lemma RedIffBeyondTwoSigma(kps: seq<Keypoint>, w: int, h: int, margin: real, sigma: real, i: nat)
    requires sigma >= 0.0 && Square(sigma) == Variance(Radii(kps))
    requires i < |DetectBlobs(kps, w, h, margin).circles|
    ensures var c := DetectBlobs(kps, w, h, margin).circles[i];
      c.colour == Red <==> (sigma > 0.0 && Abs(c.radius as real - Mean(Radii(kps))) > 2.0 * sigma)
  {
    var d := DetectBlobs(kps, w, h, margin);
    OutlierIffBeyondTwoSigma(d.circles[i].radius, Mean(Radii(kps)), Variance(Radii(kps)), sigma);
  }

  lemma OutlierIffBeyondTwoSigma(r: int, mean: real, variance: real, sigma: real)
    requires sigma >= 0.0 && Square(sigma) == variance
    ensures IsOutlier(r, mean, variance) <==> (sigma > 0.0 && Abs(r as real - mean) > 2.0 * sigma)
  {
    DeviationBySquares(r as real - mean, sigma);
  }

  /** When every keypoint has the same size the standard deviation is 0 and no
      circle is red. */
  lemma UniformSizesAllGreen(kps: seq<Keypoint>, w: int, h: int, margin: real, size: real)
    requires forall i :: 0 <= i < |kps| ==> kps[i].size == size
    ensures forall c :: c in DetectBlobs(kps, w, h, margin).circles ==> c.colour == Green
  {
    var rs := Radii(kps);
    if |kps| > 0 {
      assert AllEqual(rs, rs[0]);
    }
    VarianceZeroIffAllEqual(rs);
  }

  /** When no keypoint's truncated radius is an outlier, every circle is green. */
  lemma NoOutlierAllGreen(kps: seq<Keypoint>, w: int, h: int, margin: real)
    requires forall i :: 0 <= i < |kps| ==>
      !IsOutlier(Trunc(Radius(kps[i])), Mean(Radii(kps)), Variance(Radii(kps)))
    ensures forall c :: c in DetectBlobs(kps, w, h, margin).circles ==> c.colour == Green
  {
  }

  /** A single part whose whole-number radius differs from the common radius of
      all the other keypoints, wherever it sits among them, is drawn red exactly
      when there are at least six keypoints: among five or fewer it is never
      more than two standard deviations from the mean, however different its
      size. */
  lemma SingleOddPartRedIffSixOrMore(kps: seq<Keypoint>, w: int, h: int, margin: real, b: real, k: nat)
    requires |kps| >= 2 && k < |kps|
    requires Trunc(Radius(kps[k])) as real == Radius(kps[k]) && Radius(kps[k]) != b
    requires forall i :: 0 <= i < |kps| && i != k ==> Radius(kps[i]) == b
    requires InsideMargin(kps[k], w, h, margin)
    ensures kps[k] in DetectBlobs(kps, w, h, margin).blobs
    ensures var d := DetectBlobs(kps, w, h, margin);
      forall j :: 0 <= j < |d.circles| && d.blobs[j] == kps[k] ==> (d.circles[j].colour == Red <==> |kps| >= 6)
  {
    var a := Radius(kps[k]);
    var n := |kps|;
    var rs := Radii(kps);
    var t := OneAmongEqual(a, b, n);
    OddOneAnywhere(rs, a, b, k);
    SingleDeviantBeyondTwoSigma(a, b, n);
    VarianceZeroIffAllEqual(t);
    assert t[1] != t[0];
    assert Variance(rs) > 0.0;
    var ra := Trunc(a);
    assert ra as real == a;
    assert IsOutlier(ra, Mean(rs), Variance(rs)) <==> n >= 6;
    var d := DetectBlobs(kps, w, h, margin);
    forall j | 0 <= j < |d.circles| && d.blobs[j] == kps[k]
      ensures d.circles[j].colour == Red <==> n >= 6
    {
      assert d.circles[j].radius == ra;
    }
  }

  /** Keypoints the edge filter rejects still enter the statistics. With one
      kept part of whole-number radius, wherever it sits, and every other
      keypoint rejected with a common different radius, only the part is kept,
      and it is drawn red exactly when there are at least six keypoints;
      detected on its own, it is green. */
  lemma RejectedKeypointsEnterStatistics(kps: seq<Keypoint>, w: int, h: int, margin: real, b: real, k: nat)
    requires |kps| >= 2 && k < |kps|
    requires Trunc(Radius(kps[k])) as real == Radius(kps[k]) && Radius(kps[k]) != b
    requires forall i :: 0 <= i < |kps| && i != k ==> Radius(kps[i]) == b && !InsideMargin(kps[i], w, h, margin)
    requires InsideMargin(kps[k], w, h, margin)
    ensures DetectBlobs(kps, w, h, margin).blobs == [kps[k]]
    ensures DetectBlobs(kps, w, h, margin).circles[0].colour == Red <==> |kps| >= 6
    ensures DetectBlobs([kps[k]], w, h, margin).blobs == [kps[k]]
    ensures DetectBlobs([kps[k]], w, h, margin).circles[0].colour == Green
  {
    OnlyOneKept(kps, w, h, margin, k);
    SingleOddPartRedIffSixOrMore(kps, w, h, margin, b, k);
    UniformSizesAllGreen([kps[k]], w, h, margin, kps[k].size);
  }

  /** When the keypoint at `k` is the only one passing the edge test, it is the
      only blob. */
  lemma OnlyOneKept(kps: seq<Keypoint>, w: int, h: int, margin: real, k: nat)
    requires k < |kps| && InsideMargin(kps[k], w, h, margin)
    requires forall i :: 0 <= i < |kps| && i != k ==> !InsideMargin(kps[i], w, h, margin)
    ensures EdgeFilter(kps, w, h, margin) == [kps[k]]
  {
    var before, after := kps[..k], kps[k + 1..];
    assert kps == before + ([kps[k]] + after);
    forall i | 0 <= i < |before| ensures !InsideMargin(before[i], w, h, margin) {
      assert before[i] == kps[i];
    }
    forall i | 0 <= i < |after| ensures !InsideMargin(after[i], w, h, margin) {
      assert after[i] == kps[k + 1 + i];
    }
    EdgeFilterOfConcat(before, [kps[k]] + after, w, h, margin);
    EdgeFilterOfConcat([kps[k]], after, w, h, margin);
    EdgeFilterAllInside([kps[k]], w, h, margin);
    EdgeFilterNoneInside(before, w, h, margin);
    EdgeFilterNoneInside(after, w, h, margin);
  }

  /** Some red circle implies the keypoint radii were not all equal. */
  lemma RedImpliesUnequalRadii(kps: seq<Keypoint>, w: int, h: int, margin: real, i: nat)
    requires i < |DetectBlobs(kps, w, h, margin).circles|
    requires DetectBlobs(kps, w, h, margin).circles[i].colour == Red
    ensures exists j, k :: 0 <= j < |kps| && 0 <= k < |kps| && kps[j].size != kps[k].size
  {
    var rs := Radii(kps);
    VarianceZeroIffAllEqual(rs);
    assert !AllEqual(rs, rs[0]);
    var j :| 0 <= j < |rs| && rs[j] != rs[0];
    assert kps[j].size != kps[0].size;
  }

  /** One centred part of radius 10 and five radius-1 keypoints at the corner
      of a 1000 by 1000 image. */
  function CornerTray(): seq<Keypoint>
  {
    var corner := Keypoint(Point(0.0, 0.0), 2.0);
    [Keypoint(Point(500.0, 500.0), 20.0), corner, corner, corner, corner, corner]
  }

  lemma CornerTrayStatistics(kps: seq<Keypoint>)
    requires kps == CornerTray()
    ensures Mean(Radii(kps)) == 2.5
    ensures Variance(Radii(kps)) == 11.25
  {
    var ones := [1.0, 1.0, 1.0, 1.0, 1.0];
    assert kps[5..] == [kps[5]];
    var rs := Radii(kps);
    assert rs == [10.0] + ones;
    assert AllEqual(ones, 1.0);
    SumOfConcat([10.0], ones);
    SumOfConstant(ones, 1.0);
    assert Mean(rs) == 2.5;
    SumSqDevOfConcat([10.0], ones, 2.5);
    SumSqDevOfConstant(ones, 1.0, 2.5);
  }

  lemma CornerTrayKeepsOnlyThePart(kps: seq<Keypoint>)
    requires kps == CornerTray()
    ensures EdgeFilter(kps, 1000, 1000, 10.0) == kps[..1]
    ensures EdgeFilter(kps[..1], 1000, 1000, 10.0) == kps[..1]
  {
    assert Trunc(500.0) == 500 && Trunc(10.0) == 10;
    assert Trunc(0.0) == 0 && Trunc(1.0) == 1;
    assert kps == kps[..1] + kps[1..];
    EdgeFilterOfConcat(kps[..1], kps[1..], 1000, 1000, 10.0);
    EdgeFilterAllInside(kps[..1], 1000, 1000, 10.0);
    EdgeFilterNoneInside(kps[1..], 1000, 1000, 10.0);
  }

  lemma SinglePartStatistics(kps: seq<Keypoint>)
    requires kps == CornerTray()[..1]
    ensures Mean(Radii(kps)) == 10.0
    ensures Variance(Radii(kps)) == 0.0
  {
    assert Radii(kps) == [10.0];
    MeanOfConstant([10.0], 10.0);
    VarianceZeroIffAllEqual([10.0]);
  }

  /** The statistics include keypoints the edge filter rejects: the centred part
      is the only blob kept, and it is drawn red because of the five rejected
      corner keypoints, while on its own (standard deviation 0) it is green. */
  lemma RejectedKeypointsShiftStatistics(kps: seq<Keypoint>)
    requires kps == CornerTray()
    ensures DetectBlobs(kps, 1000, 1000, 10.0) == Detection(kps[..1], [Circle(500, 500, 10, Red)])
    ensures DetectBlobs(kps[..1], 1000, 1000, 10.0) == Detection(kps[..1], [Circle(500, 500, 10, Green)])
  {
    CornerTrayStatistics(kps);
    CornerTrayKeepsOnlyThePart(kps);
    SinglePartStatistics(kps[..1]);
    assert Trunc(500.0) == 500 && Trunc(10.0) == 10;
    assert IsOutlier(10, 2.5, 11.25);
    assert !IsOutlier(10, 10.0, 0.0);
  }

  /** Radii 10, 10, 10, 10 and 40 have mean 16 and variance 144. */
  lemma FourSmallOneLargeStatistics()
    ensures Mean([10.0, 10.0, 10.0, 10.0, 40.0]) == 16.0
    ensures Variance([10.0, 10.0, 10.0, 10.0, 40.0]) == 144.0
  {
    var tens := [10.0, 10.0, 10.0, 10.0];
    var rs := tens + [40.0];
    assert rs == [10.0, 10.0, 10.0, 10.0, 40.0];
    assert AllEqual(tens, 10.0);
    SumOfConcat(tens, [40.0]);
    SumOfConstant(tens, 10.0);
    assert Mean(rs) == 16.0;
    SumSqDevOfConcat(tens, [40.0], 16.0);
    SumSqDevOfConstant(tens, 10.0, 16.0);
  }

  /** Four radius-10 parts near the corners and one radius-40 part in the centre
      of a 200 by 200 image. */
  function FiveBlobTray(): seq<Keypoint>
  {
    [Keypoint(Point(30.0, 30.0), 20.0), Keypoint(Point(170.0, 30.0), 20.0),
     Keypoint(Point(30.0, 170.0), 20.0), Keypoint(Point(170.0, 170.0), 20.0),
     Keypoint(Point(100.0, 100.0), 80.0)]
  }

  lemma FiveBlobTrayStatistics(kps: seq<Keypoint>)
    requires kps == FiveBlobTray()
    ensures Mean(Radii(kps)) == 16.0
    ensures Variance(Radii(kps)) == 144.0
  {
    assert kps[4..] == [kps[4]];
    assert Radii(kps) == [10.0, 10.0, 10.0, 10.0, 40.0];
    FourSmallOneLargeStatistics();
  }

  lemma FiveBlobTrayTruncatedRadii(kps: seq<Keypoint>)
    requires kps == FiveBlobTray()
    ensures forall i :: 0 <= i < |kps| ==> Trunc(Radius(kps[i])) == 10 || Trunc(Radius(kps[i])) == 40
  {
    assert Trunc(10.0) == 10 && Trunc(40.0) == 40;
  }

  lemma FiveBlobTrayAllKept(kps: seq<Keypoint>)
    requires kps == FiveBlobTray()
    ensures EdgeFilter(kps, 200, 200, 5.0) == kps
  {
    assert Trunc(10.0) == 10 && Trunc(40.0) == 40;
    assert Trunc(30.0) == 30 && Trunc(170.0) == 170 && Trunc(100.0) == 100;
    EdgeFilterAllInside(kps, 200, 200, 5.0);
  }

  lemma FiveBlobTrayNoOutlier(kps: seq<Keypoint>)
    requires kps == FiveBlobTray()
    ensures forall i :: 0 <= i < |kps| ==>
      !IsOutlier(Trunc(Radius(kps[i])), Mean(Radii(kps)), Variance(Radii(kps)))
  {
    FiveBlobTrayStatistics(kps);
    FiveBlobTrayTruncatedRadii(kps);
    assert !IsOutlier(10, 16.0, 144.0) && !IsOutlier(40, 16.0, 144.0);
  }

  /** With margin 5 all five parts are kept, and the large one lies exactly two
      standard deviations from the mean (mean 16, variance 144, deviation 24), so
      the strict test does not flag it: all five circles are green. */
  lemma OneLargeAmongFiveNotFlagged(kps: seq<Keypoint>)
    requires kps == FiveBlobTray()
    ensures DetectBlobs(kps, 200, 200, 5.0).blobs == kps
    ensures forall c :: c in DetectBlobs(kps, 200, 200, 5.0).circles ==> c.colour == Green
  {
    FiveBlobTrayAllKept(kps);
    FiveBlobTrayNoOutlier(kps);
    NoOutlierAllGreen(kps, 200, 200, 5.0);
  }

  /** The truncated radius is compared with the untruncated mean, so truncation
      can invert the colours. Among ten radii of 10.5 and one of 11.5 (mean
      10.5 + 1/11, variance 10/121), the truncated ordinary radius 10 is an
      outlier and the truncated odd radius 11 is not. */
  lemma TruncationCanInvertColours()
    ensures var s := OneAmongEqual(11.5, 10.5, 11);
      IsOutlier(Trunc(10.5), Mean(s), Variance(s)) && !IsOutlier(Trunc(11.5), Mean(s), Variance(s))
  {
    var s := OneAmongEqual(11.5, 10.5, 11);
    var e := 1.0 / 11.0;
    OneAmongEqualMean(11.5, 10.5, 11, e);
    OneAmongEqualVariance(11.5, 10.5, 11, e);
    assert Trunc(10.5) == 10 && Trunc(11.5) == 11;
    assert Mean(s) == 10.5 + e;
    assert Variance(s) == 10.0 * (e * e);
  }
}

=== FILE: focus.dfy ===
/** `Focus.py`: the in-focus verdict and the loop that waits for a focused
    frame. Frames are opaque (type parameter `F`); the Laplacian-variance score
    the source computes with OpenCV is the parameter `score`. The camera is a
    finite sequence of read events; running off its end is a failed read. */
module Focus {
  import opened Options

  /** The default `threshold` of both `is_camera_in_focus` and `wait_for_focus`. */
  const DefaultThreshold: real := 9.0

  /** `waitKey(...) & 0xFF == 27`: the low byte of the key code is ESC. */
  const EscCode: int := 27

  /** `is_camera_in_focus`'s pair: the verdict and the focus measure. */
  datatype Verdict = Verdict(inFocus: bool, measure: real)

  /** One iteration's camera read: a failure, or a frame together with the key
      code `waitKey` would report after showing it (-1 when no key was pressed). */
  datatype Event<F> = ReadFail | Frame(image: F, key: int)

  function IsCameraInFocus<F>(image: F, score: F -> real, threshold: real := DefaultThreshold): (v: Verdict)
    ensures v.measure == score(image)
    ensures v.inFocus <==> v.measure > threshold
  {
    var measure := score(image);
    Verdict(measure > threshold, measure)
  }

  /** Python's `key & 0xFF`, which for a negative key is its two's-complement
      low byte; Dafny's `%` is Euclidean, so both agree on every integer. */
  predicate IsEsc(key: int)
  {
    key % 256 == EscCode
  }

  /** `wait_for_focus`: the first in-focus frame, or `None` when a read fails or
      ESC is pressed after an out-of-focus frame. The focus test precedes the
      ESC test. */
  function WaitForFocus<F>(events: seq<Event<F>>, score: F -> real, threshold: real := DefaultThreshold)
    : (r: Maybe<F>)
    ensures r.Present? ==> IsCameraInFocus(r.value, score, threshold).inFocus
    decreases |events|
  {
    if |events| == 0 then Absent
    else match events[0]
      case ReadFail => Absent
      case Frame(image, key) =>
        if IsCameraInFocus(image, score, threshold).inFocus then Present(image)
        else if IsEsc(key) then Absent
        else WaitForFocus(events[1..], score, threshold)
  }

  /** An event after which the loop reads again: an out-of-focus frame with no ESC. */
  predicate Continues<F>(e: Event<F>, score: F -> real, threshold: real)
  {
    e.Frame? && !IsCameraInFocus(e.image, score, threshold).inFocus && !IsEsc(e.key)
  }

  predicate AllContinue<F>(events: seq<Event<F>>, score: F -> real, threshold: real)
  {
    forall j :: 0 <= j < |events| ==> Continues(events[j], score, threshold)
  }

  /** An event that ends the loop. */
  predicate Stops<F>(e: Event<F>, score: F -> real, threshold: real)
  {
    !Continues(e, score, threshold)
  }

  // ----- the verdict -----

  /** A score equal to the threshold is out of focus: the comparison is strict. */
  lemma ScoreAtThresholdIsOutOfFocus<F>(image: F, score: F -> real, threshold: real)
    requires score(image) == threshold
    ensures !IsCameraInFocus(image, score, threshold).inFocus
  {
  }

  /** The verdict is monotone: a sharper frame, or a lower threshold, cannot turn
      an in-focus verdict into an out-of-focus one. */
  lemma VerdictMonotone<F>(a: F, b: F, score: F -> real, t1: real, t2: real)
    requires score(a) <= score(b) && t2 <= t1
    ensures IsCameraInFocus(a, score, t1).inFocus ==> IsCameraInFocus(b, score, t2).inFocus
  {
  }

  /** Called without a threshold, the verdict compares the score with 9.0. */
  lemma DefaultThresholdVerdict<F>(image: F, score: F -> real)
    ensures IsCameraInFocus(image, score).inFocus <==> score(image) > 9.0
  {
  }

  lemma NoKeyIsNotEsc()
    ensures !IsEsc(-1)
    ensures IsEsc(27) && IsEsc(27 + 256)
  {
  }

  // ----- the waiting loop -----

  /** Events after which the loop reads again are skipped without effect. */
  lemma {:induction false} SkipsContinuing<F>(prefix: seq<Event<F>>, rest: seq<Event<F>>,
                                              score: F -> real, threshold: real)
    requires AllContinue(prefix, score, threshold)
    ensures WaitForFocus(prefix + rest, score, threshold) == WaitForFocus(rest, score, threshold)
    decreases |prefix|
  {
    if |prefix| > 0 {
      assert Continues(prefix[0], score, threshold);
      assert (prefix + rest)[0] == prefix[0];
      assert (prefix + rest)[1..] == prefix[1..] + rest;
      assert AllContinue(prefix[1..], score, threshold) by {
        forall j | 0 <= j < |prefix[1..]| ensures Continues(prefix[1..][j], score, threshold) {
          assert prefix[1..][j] == prefix[j + 1];
        }
      }
      SkipsContinuing(prefix[1..], rest, score, threshold);
    } else {
      assert prefix + rest == rest;
    }
  }

  /** The first frame that is in focus is returned, whatever key accompanies it
      (ESC is only looked at after an out-of-focus frame). */
  lemma ReturnsFirstInFocusFrame<F>(events: seq<Event<F>>, k: nat, score: F -> real, threshold: real)
    requires k < |events| && AllContinue(events[..k], score, threshold)
    requires events[k].Frame? && score(events[k].image) > threshold
    ensures WaitForFocus(events, score, threshold) == Present(events[k].image)
  {
    assert events == events[..k] + events[k..];
    SkipsContinuing(events[..k], events[k..], score, threshold);
  }

  /** Called without a threshold, the wait returns the first frame scoring
      above 9.0 when every frame before it scored at most 9.0 without ESC. */
  lemma DefaultThresholdWait<F>(events: seq<Event<F>>, k: nat, score: F -> real)
    requires k < |events| && events[k].Frame? && score(events[k].image) > 9.0
    requires forall j :: 0 <= j < k ==>
      events[j].Frame? && score(events[j].image) <= 9.0 && !IsEsc(events[j].key)
    ensures WaitForFocus(events, score) == Present(events[k].image)
  {
    assert AllContinue(events[..k], score, DefaultThreshold) by {
      forall j | 0 <= j < k ensures Continues(events[..k][j], score, DefaultThreshold) {
        assert events[..k][j] == events[j];
      }
    }
    ReturnsFirstInFocusFrame(events, k, score, DefaultThreshold);
  }

  /** A failed read, or ESC after an out-of-focus frame, before any in-focus
      frame gives `None`; the two causes are indistinguishable to the caller. */
  lemma FailOrEscGivesNone<F>(events: seq<Event<F>>, k: nat, score: F -> real, threshold: real)
    requires k < |events| && AllContinue(events[..k], score, threshold)
    requires events[k].ReadFail?
             || (events[k].Frame? && score(events[k].image) <= threshold && IsEsc(events[k].key))
    ensures WaitForFocus(events, score, threshold).Absent?
  {
    assert events == events[..k] + events[k..];
    SkipsContinuing(events[..k], events[k..], score, threshold);
  }

  /** A stream that ends while every frame was out of focus and no ESC was
      pressed gives `None`: the end of the stream is a failed read. */
  lemma ExhaustedGivesNone<F>(events: seq<Event<F>>, score: F -> real, threshold: real)
    requires AllContinue(events, score, threshold)
    ensures WaitForFocus(events, score, threshold).Absent?
  {
    assert events + [] == events;
    SkipsContinuing(events, [], score, threshold);
  }

  /** No event after the one that ends the loop is consumed: replacing
      everything after it leaves the result unchanged. */
  lemma LaterEventsNotConsumed<F>(events: seq<Event<F>>, k: nat, rest: seq<Event<F>>,
                                  score: F -> real, threshold: real)
    requires k < |events| && AllContinue(events[..k], score, threshold)
    requires Stops(events[k], score, threshold)
    ensures WaitForFocus(events[..k + 1] + rest, score, threshold) == WaitForFocus(events, score, threshold)
  {
    var stopped := events[..k + 1] + rest;
    assert stopped == events[..k] + ([events[k]] + rest);
    assert events == events[..k] + events[k..];
    SkipsContinuing(events[..k], [events[k]] + rest, score, threshold);
    SkipsContinuing(events[..k], events[k..], score, threshold);
  }

  /** Conversely, a returned frame is the first in-focus frame: it comes from an
      event preceded only by out-of-focus frames without ESC. */
  lemma {:induction false} ResultIsFirstInFocus<F>(events: seq<Event<F>>, score: F -> real, threshold: real)
    returns (k: nat)
    requires WaitForFocus(events, score, threshold).Present?
    ensures k < |events| && AllContinue(events[..k], score, threshold)
    ensures events[k].Frame? && events[k].image == WaitForFocus(events, score, threshold).value
    ensures score(events[k].image) > threshold
    decreases |events|
  {
    if IsCameraInFocus(events[0].image, score, threshold).inFocus {
      k := 0;
    } else {
      var j := ResultIsFirstInFocus(events[1..], score, threshold);
      k := j + 1;
      assert events[..k] == [events[0]] + events[1..][..j];
      forall i | 0 <= i < k ensures Continues(events[..k][i], score, threshold) {
        if i > 0 {
          assert events[..k][i] == events[1..][..j][i - 1];
        }
      }
    }
  }
}

=== FILE: options.dfy ===
/** A value that may be missing: a profile key absent from the configuration
    file, or the `None` that `wait_for_focus` returns when it obtains no
    focused frame. */
module Options {

  datatype Maybe<T> = Absent | Present(value: T)

  /** `dict.get(key, fallback)`: the stored value, or `fallback` when the key
      is missing. */
  function ValueOr<T>(m: Maybe<T>, fallback: T): T
  {
    if m.Present? then m.value else fallback
  }
}

=== FILE: scan_report.dfy ===
/** What `main` does with the blobs of one scan: count them against the expected
    number from the tray profile, and flag blobs much larger than the average
    kept blob as possible overlaps. Operator messages become report fields. */
module ScanReport {
  import opened Stats
  import opened TrayConfig
  import opened BlobDetection

  /** The report of one scan. `overlaps[i]` flags `detection.blobs[i]`. */
  datatype Report = Report(
    detection: Detection,
    found: nat,
    expected: int,
    difference: int,
    overlaps: seq<bool>)

  function Sizes(blobs: seq<Keypoint>): (s: seq<real>)
    ensures |s| == |blobs|
    ensures forall i :: 0 <= i < |blobs| ==> s[i] == blobs[i].size
  {
    if |blobs| == 0 then [] else [blobs[0].size] + Sizes(blobs[1..])
  }

  /** The overlap test: a blob is flagged when its size exceeds 1.5 times the mean
      size of the kept blobs (the rejected keypoints do not take part). */
  predicate IsLikelyOverlap(b: Keypoint, blobs: seq<Keypoint>)
  {
    b.size > Mean(Sizes(blobs)) * 1.5
  }

  function OverlapFlags(blobs: seq<Keypoint>): (flags: seq<bool>)
    ensures |flags| == |blobs|
    ensures forall i :: 0 <= i < |blobs| ==> (flags[i] <==> IsLikelyOverlap(blobs[i], blobs))
  {
    seq(|blobs|, i requires 0 <= i < |blobs| => IsLikelyOverlap(blobs[i], blobs))
  }

  /** One scan: detect the blobs of a `w` by `h` image with the profile's
      margin, then count and flag them. */
  function Scan(kps: seq<Keypoint>, w: int, h: int, profile: Profile): (r: Report)
    ensures r.detection == DetectBlobs(kps, w, h, BlobParamsOf(profile).margin)
    ensures r.found == |r.detection.blobs| <= |kps|
    ensures r.expected == ExpectedCount(profile)
    ensures r.found + r.difference == r.expected
    ensures |r.overlaps| == r.found
    ensures forall i :: 0 <= i < r.found ==>
      (r.overlaps[i] <==> r.detection.blobs[i].size > 1.5 * Mean(Sizes(r.detection.blobs)))
  {
    var d := DetectBlobs(kps, w, h, BlobParamsOf(profile).margin);
    var found := |d.blobs|;
    var expected := ExpectedCount(profile);
    Report(d, found, expected, expected - found, OverlapFlags(d.blobs))
  }

  /** Among kept blobs of non-negative size, at least one is not flagged as an
      overlap: not every blob can exceed 1.5 times the mean. */
  lemma SomeBlobNotOverlap(blobs: seq<Keypoint>) returns (i: nat)
    requires |blobs| > 0
    requires forall j :: 0 <= j < |blobs| ==> blobs[j].size >= 0.0
    ensures i < |blobs| && !OverlapFlags(blobs)[i]
  {
    var sizes := Sizes(blobs);
    MeanNonNegative(sizes);
    i := SomeAtMostMean(sizes);
  }

  /** Blobs of one common non-negative size are never flagged. */
  lemma EqualSizesNoOverlap(blobs: seq<Keypoint>, size: real)
    requires size >= 0.0
    requires forall j :: 0 <= j < |blobs| ==> blobs[j].size == size
    ensures forall j :: 0 <= j < |blobs| ==> !OverlapFlags(blobs)[j]
  {
    if |blobs| > 0 {
      assert AllEqual(Sizes(blobs), size);
      MeanOfConstant(Sizes(blobs), size);
    }
  }

  /** With no expected count in the profile the expected count is 0, so the
      difference is the negated number of blobs found. */
  lemma DefaultExpectedDifference(kps: seq<Keypoint>, w: int, h: int, profile: Profile)
    requires profile.expectedCount.Absent?
    ensures Scan(kps, w, h, profile).difference == -(Scan(kps, w, h, profile).found as int)
    ensures Scan(kps, w, h, profile).difference <= 0
  {
  }

  /** An expected count of 6 with five blobs found reports a difference of 1. */
  lemma FiveOfSixFound(kps: seq<Keypoint>, w: int, h: int, profile: Profile)
    requires profile.expectedCount == Options.Present(6)
    requires |EdgeFilter(kps, w, h, BlobParamsOf(profile).margin)| == 5
    ensures Scan(kps, w, h, profile).found == 5
    ensures Scan(kps, w, h, profile).difference == 1
  {
  }
}

=== FILE: stats.dfy ===
/** Population statistics over a finite sequence of reals, the exact-arithmetic
    counterpart of numpy's `mean` and `std` (with numpy's default ddof = 0).
    The standard deviation itself is never formed: callers compare its square,
    the variance, and `DeviationBySquares` justifies doing so. */
module Stats {

  function Sum(s: seq<real>): real
  {
    if |s| == 0 then 0.0 else s[0] + Sum(s[1..])
  }

  /** Mean of `s`; 0 for the empty sequence, as the `if radii else 0` guards do. */
  function Mean(s: seq<real>): real
  {
    if |s| == 0 then 0.0 else Sum(s) / (|s| as real)
  }

  function Square(x: real): (r: real)
    ensures r >= 0.0
  {
    x * x
  }

  function Abs(x: real): (r: real)
    ensures r >= 0.0 && (r == x || r == -x)
  {
    if x < 0.0 then -x else x
  }

  /** Sum of the squared deviations of the elements of `s` from `m`. */
  function SumSqDev(s: seq<real>, m: real): (r: real)
    ensures r >= 0.0
  {
    if |s| == 0 then 0.0 else Square(s[0] - m) + SumSqDev(s[1..], m)
  }

  /** Population variance, the square of `np.std`; 0 for the empty sequence. */
  function Variance(s: seq<real>): (v: real)
    ensures v >= 0.0
  {
    if |s| == 0 then 0.0 else SumSqDev(s, Mean(s)) / (|s| as real)
  }

  predicate AllEqual(s: seq<real>, c: real)
  {
    forall i :: 0 <= i < |s| ==> s[i] == c
  }

  lemma {:induction false} SumOfConstant(s: seq<real>, c: real)
    requires AllEqual(s, c)
    ensures Sum(s) == (|s| as real) * c
  {
    if |s| > 0 {
      assert AllEqual(s[1..], c) by {
        forall i | 0 <= i < |s[1..]| ensures s[1..][i] == c {
          assert s[1..][i] == s[i + 1];
        }
      }
      SumOfConstant(s[1..], c);
    }
  }

  /** The mean of a non-empty constant sequence is that constant. */
  lemma MeanOfConstant(s: seq<real>, c: real)
    requires |s| > 0 && AllEqual(s, c)
    ensures Mean(s) == c
  {
    SumOfConstant(s, c);
  }

  /** Each of the `|s|` elements equal to `c` contributes `(c - m)^2`. */
  lemma {:induction false} SumSqDevOfConstant(s: seq<real>, c: real, m: real)
    requires AllEqual(s, c)
    ensures SumSqDev(s, m) == (|s| as real) * Square(c - m)
  {
    if |s| > 0 {
      assert AllEqual(s[1..], c) by {
        forall i | 0 <= i < |s[1..]| ensures s[1..][i] == c {
          assert s[1..][i] == s[i + 1];
        }
      }
      SumSqDevOfConstant(s[1..], c, m);
    }
  }

  lemma {:induction false} SumOfConcat(a: seq<real>, b: seq<real>)
    ensures Sum(a + b) == Sum(a) + Sum(b)
  {
    if |a| == 0 {
      assert a + b == b;
    } else {
      assert (a + b)[1..] == a[1..] + b;
      SumOfConcat(a[1..], b);
    }
  }

  lemma {:induction false} SumSqDevOfConcat(a: seq<real>, b: seq<real>, m: real)
    ensures SumSqDev(a + b, m) == SumSqDev(a, m) + SumSqDev(b, m)
  {
    if |a| == 0 {
      assert a + b == b;
    } else {
      assert (a + b)[1..] == a[1..] + b;
      SumSqDevOfConcat(a[1..], b, m);
    }
  }

  /** Every element lies exactly on `m` when the squared deviations from `m` sum to 0. */
  lemma {:induction false} SumSqDevZero(s: seq<real>, m: real)
    requires SumSqDev(s, m) == 0.0
    ensures AllEqual(s, m)
  {
    if |s| > 0 {
      var d := s[0] - m;
      assert Square(d) == 0.0;
      assert d == 0.0 by {
        SquareStrictMonotone(0.0, Abs(d));
      }
      SumSqDevZero(s[1..], m);
      forall i | 0 <= i < |s| ensures s[i] == m {
        if i > 0 {
          assert s[i] == s[1..][i - 1];
        }
      }
    }
  }

  /** The variance is zero exactly when all elements are equal (or there are none):
      the guard `std > 0` fails precisely for a uniform population. */
  lemma VarianceZeroIffAllEqual(s: seq<real>)
    ensures Variance(s) == 0.0 <==> (|s| == 0 || AllEqual(s, s[0]))
  {
    if |s| > 0 {
      var n := |s| as real;
      if Variance(s) == 0.0 {
        assert SumSqDev(s, Mean(s)) == Variance(s) * n;
        SumSqDevZero(s, Mean(s));
      }
      if AllEqual(s, s[0]) {
        MeanOfConstant(s, s[0]);
        SumSqDevOfConstant(s, s[0], s[0]);
      }
    }
  }

  lemma {:induction false} SumAbove(s: seq<real>, c: real)
    requires |s| > 0
    requires forall i :: 0 <= i < |s| ==> s[i] > c
    ensures Sum(s) > (|s| as real) * c
  {
    if |s| == 1 {
      assert Sum(s) == s[0] + Sum(s[1..]);
    } else {
      assert forall i :: 0 <= i < |s[1..]| ==> s[1..][i] == s[i + 1];
      SumAbove(s[1..], c);
    }
  }

  /** Some element of a non-empty sequence is at most its mean. */
  lemma SomeAtMostMean(s: seq<real>) returns (i: nat)
    requires |s| > 0
    ensures i < |s| && s[i] <= Mean(s)
  {
    var n := |s| as real;
    if forall j :: 0 <= j < |s| ==> s[j] > Mean(s) {
      assert n * Mean(s) == Sum(s);
      SumAbove(s, Mean(s));
      assert false;
    }
    i :| 0 <= i < |s| && s[i] <= Mean(s);
  }

  lemma {:induction false} SumNonNegative(s: seq<real>)
    requires forall i :: 0 <= i < |s| ==> s[i] >= 0.0
    ensures Sum(s) >= 0.0
  {
    if |s| > 0 {
      assert forall i :: 0 <= i < |s[1..]| ==> s[1..][i] == s[i + 1];
      SumNonNegative(s[1..]);
    }
  }

  lemma MeanNonNegative(s: seq<real>)
    requires forall i :: 0 <= i < |s| ==> s[i] >= 0.0
    ensures Mean(s) >= 0.0
  {
    SumNonNegative(s);
  }

  lemma ProductPositive(x: real, y: real)
    requires 0.0 < x && 0.0 < y
    ensures 0.0 < x * y
  {
  }

  lemma SquareStrictMonotone(a: real, b: real)
    requires 0.0 <= a && 0.0 <= b
    ensures a < b <==> Square(a) < Square(b)
  {
    if a < b {
      var x, y := b - a, b + a;
      ProductPositive(x, y);
      assert x * y == Square(b) - Square(a);
    } else if b < a {
      var x, y := a - b, a + b;
      ProductPositive(x, y);
      assert x * y == Square(a) - Square(b);
    }
  }

  /** numpy's test `std > 0 and abs(d) > 2 * std`, for any non-negative `sigma`,
      holds exactly when `var > 0 and d * d > 4 * var` holds of `var = sigma * sigma`. */
  lemma DeviationBySquares(d: real, sigma: real)
    requires sigma >= 0.0
    ensures (sigma > 0.0 && Abs(d) > 2.0 * sigma)
            <==> (Square(sigma) > 0.0 && Square(d) > 4.0 * Square(sigma))
  {
    SquareStrictMonotone(2.0 * sigma, Abs(d));
    assert Square(2.0 * sigma) == 4.0 * Square(sigma);
    assert Square(Abs(d)) == Square(d);
    SquareStrictMonotone(0.0, sigma);
  }

  lemma CancelPositive(x: real, y: real, p: real)
    requires p > 0.0
    ensures x * p > y * p <==> x > y
  {
    if x > y {
      ProductPositive(x - y, p);
      assert (x - y) * p == x * p - y * p;
    } else if y > x {
      ProductPositive(y - x, p);
      assert (y - x) * p == y * p - x * p;
    }
  }

  /** One `a` followed by `n - 1` copies of `b`: the population the outlier test
      sees when all parts but one have the same radius. */
  function OneAmongEqual(a: real, b: real, n: nat): (s: seq<real>)
    requires n >= 1
    ensures |s| == n && s[0] == a
    ensures forall i :: 1 <= i < n ==> s[i] == b
  {
    [a] + seq(n - 1, _ => b)
  }

  lemma OneAmongEqualSplit(a: real, b: real, n: nat)
    requires n >= 1
    ensures OneAmongEqual(a, b, n) == [a] + OneAmongEqual(a, b, n)[1..]
    ensures AllEqual(OneAmongEqual(a, b, n)[1..], b)
  {
    var s := OneAmongEqual(a, b, n);
    var rest := s[1..];
    forall i | 0 <= i < |rest| ensures rest[i] == b {
      assert rest[i] == s[i + 1];
    }
  }

  /** The mean lies `e = (a - b) / n` above `b`. */
  lemma OneAmongEqualMean(a: real, b: real, n: nat, e: real)
    requires n >= 1 && e * (n as real) == a - b
    ensures Mean(OneAmongEqual(a, b, n)) == b + e
  {
    var s := OneAmongEqual(a, b, n);
    OneAmongEqualSplit(a, b, n);
    SumOfConcat([a], s[1..]);
    SumOfConstant(s[1..], b);
    var m := n as real;
    assert Sum(s) == a + (m - 1.0) * b;
    assert m * (b + e) == Sum(s);
    MeanFromSum(s, b + e);
  }

  lemma MeanFromSum(s: seq<real>, x: real)
    requires |s| > 0 && Sum(s) == (|s| as real) * x
    ensures Mean(s) == x
  {
    DivCancel(x, |s| as real);
  }

  lemma OneAmongEqualSumSqDev(a: real, b: real, n: nat, mu: real)
    requires n >= 1
    ensures SumSqDev(OneAmongEqual(a, b, n), mu)
            == Square(a - mu) + ((n as real) - 1.0) * Square(b - mu)
  {
    var s := OneAmongEqual(a, b, n);
    OneAmongEqualSplit(a, b, n);
    SumSqDevOfConcat([a], s[1..], mu);
    SumSqDevOfConstant(s[1..], b, mu);
  }

  lemma OneDeviantSquares(m: real, e: real)
    ensures Square((m - 1.0) * e) + (m - 1.0) * Square(-e) == m * ((m - 1.0) * (e * e))
  {
  }

  /** With `e = (a - b) / n`, the variance is `(n - 1) * e * e`. */
  lemma OneAmongEqualVariance(a: real, b: real, n: nat, e: real)
    requires n >= 1 && e * (n as real) == a - b
    ensures Variance(OneAmongEqual(a, b, n)) == ((n as real) - 1.0) * (e * e)
  {
    var s := OneAmongEqual(a, b, n);
    var m := n as real;
    OneAmongEqualMean(a, b, n, e);
    OneAmongEqualSumSqDev(a, b, n, b + e);
    assert a - (b + e) == (m - 1.0) * e;
    assert b - (b + e) == -e;
    OneDeviantSquares(m, e);
    VarianceFromSumSqDev(s, (m - 1.0) * (e * e));
  }

  lemma VarianceFromSumSqDev(s: seq<real>, x: real)
    requires |s| > 0 && SumSqDev(s, Mean(s)) == (|s| as real) * x
    ensures Variance(s) == x
  {
    DivCancel(x, |s| as real);
  }

  lemma DivCancel(x: real, m: real)
    requires m != 0.0
    ensures (m * x) / m == x
  {
  }

  /** When all elements but one are equal, the odd one lies more than two
      standard deviations from the mean exactly when there are at least six
      elements; with five it lies exactly two standard deviations away. */
  lemma SingleDeviantBeyondTwoSigma(a: real, b: real, n: nat)
    requires n >= 2 && a != b
    ensures var s := OneAmongEqual(a, b, n);
      Square(a - Mean(s)) > 4.0 * Variance(s) <==> n >= 6
  {
    var s := OneAmongEqual(a, b, n);
    var m := n as real;
    var e := (a - b) / m;
    assert e * m == a - b;
    OneAmongEqualMean(a, b, n, e);
    OneAmongEqualVariance(a, b, n, e);
    var q := e * e;
    assert q > 0.0 by {
      SquareStrictMonotone(0.0, Abs(e));
    }
    var p := (m - 1.0) * q;
    ProductPositive(m - 1.0, q);
    assert a - Mean(s) == (m - 1.0) * e;
    assert Square(a - Mean(s)) == (m - 1.0) * p;
    assert Variance(s) == p;
    CancelPositive(m - 1.0, 4.0, p);
  }

  /** The statistics do not depend on where the odd element sits: a sequence
      holding `a` at position `k` and `b` everywhere else has the mean and the
      variance of `OneAmongEqual(a, b, n)`. */
  lemma OddOneAnywhere(s: seq<real>, a: real, b: real, k: nat)
    requires k < |s| && s[k] == a
    requires forall i :: 0 <= i < |s| && i != k ==> s[i] == b
    ensures Mean(s) == Mean(OneAmongEqual(a, b, |s|))
    ensures Variance(s) == Variance(OneAmongEqual(a, b, |s|))
  {
    var t := OneAmongEqual(a, b, |s|);
    var p, q := s[..k], s[k + 1..];
    OddOneLayout(s, a, b, k);
    OneAmongEqualSplit(a, b, |s|);
    assert t[1..] == p + q;
    SumAroundOdd(p, q, a);
    assert Sum(t) == a + Sum(t[1..]);
    var mu := Mean(s);
    SumSqDevAroundOdd(p, q, a, mu);
    assert SumSqDev(t, mu) == Square(a - mu) + SumSqDev(t[1..], mu);
  }

  /** `s` cut around position `k`: the `b`s before, the odd `a`, the `b`s after;
      the `b`s together are the tail of `OneAmongEqual(a, b, n)`. */
  lemma OddOneLayout(s: seq<real>, a: real, b: real, k: nat)
    requires k < |s| && s[k] == a
    requires forall i :: 0 <= i < |s| && i != k ==> s[i] == b
    ensures s == s[..k] + ([a] + s[k + 1..])
    ensures s[..k] + s[k + 1..] == OneAmongEqual(a, b, |s|)[1..]
  {
    var p, q := s[..k], s[k + 1..];
    assert s == p + ([s[k]] + q);
    var t := OneAmongEqual(a, b, |s|)[1..];
    forall i | 0 <= i < |p + q| ensures (p + q)[i] == t[i] {
      if i < |p| {
        assert (p + q)[i] == s[i];
      } else {
        assert (p + q)[i] == s[i + 1];
      }
    }
  }

  /** Moving one element to the front changes neither the sum ... */
  lemma {:induction false} SumAroundOdd(p: seq<real>, q: seq<real>, a: real)
    ensures Sum(p + ([a] + q)) == a + Sum(p + q)
  {
    SumOfConcat(p, [a] + q);
    SumOfConcat(p, q);
    assert Sum([a] + q) == a + Sum(q) by {
      assert ([a] + q)[1..] == q;
    }
  }

  /** ... nor the squared deviations from any `mu`. */
  lemma {:induction false} SumSqDevAroundOdd(p: seq<real>, q: seq<real>, a: real, mu: real)
    ensures SumSqDev(p + ([a] + q), mu) == Square(a - mu) + SumSqDev(p + q, mu)
  {
    SumSqDevOfConcat(p, [a] + q, mu);
    SumSqDevOfConcat(p, q, mu);
    assert SumSqDev([a] + q, mu) == Square(a - mu) + SumSqDev(q, mu) by {
      assert ([a] + q)[1..] == q;
    }
  }
}

=== FILE: tray_config.dfy ===
/** The tray profile read from the JSON configuration file, and the defaults
    `detect_blobs` and `main` apply to missing keys. Reading the file is not
    modelled: a profile is a record whose keys may each be absent. */
module TrayConfig {
  import opened Options

  const DefaultMargin: real := 10.0
  const DefaultMaxArea: real := 100000.0
  const DefaultExpectedCount: int := 0

  /** The keys of a tray profile; `Absent` is a key missing from the file. */
  datatype Profile = Profile(
    blobMargin: Maybe<real>,
    blobMinArea: Maybe<real>,
    blobMaxArea: Maybe<real>,
    expectedCount: Maybe<int>)

  /** The parameters `detect_blobs` derives from a profile. The minimum area has
      no default and stays optional: it is only handed to the blob detector. */
  datatype BlobParams = BlobParams(margin: real, minArea: Maybe<real>, maxArea: real)

  function BlobParamsOf(p: Profile): (b: BlobParams)
    ensures p.blobMargin.Absent? ==> b.margin == 10.0
    ensures p.blobMargin.Present? ==> b.margin == p.blobMargin.value
    ensures b.minArea == p.blobMinArea
    ensures p.blobMaxArea.Absent? ==> b.maxArea == 100000.0
    ensures p.blobMaxArea.Present? ==> b.maxArea == p.blobMaxArea.value
  {
    BlobParams(ValueOr(p.blobMargin, DefaultMargin), p.blobMinArea, ValueOr(p.blobMaxArea, DefaultMaxArea))
  }

  function ExpectedCount(p: Profile): (n: int)
    ensures p.expectedCount.Absent? ==> n == 0
    ensures p.expectedCount.Present? ==> n == p.expectedCount.value
  {
    ValueOr(p.expectedCount, DefaultExpectedCount)
  }
}
